=== FILE: README.md ===
# clearscreen, modelled in Dafny

This project models the core of the `clearscreen` Rust library: the closed set
of screen-clearing strategies (`enum ClearScreen`), the dispatcher that runs one
of them against an output sink (`ClearScreen::clear_to`), the escape-sequence
constants it writes, its error type, and the Unix terminal-mode logic behind
the `VtCooked` and `VtWellDone` strategies (`reset_termios`, `vt_cooked`,
`vt_well_done`, and the in-memory part of `write_termios`).

Everything is a pure function over an abstract environment (`Screen.Env`):

- `database`: the outcome of loading the terminfo database. A loaded
  database maps each capability the dispatcher asks for (`clear`, the `User3`
  slot reported as `E3`, `rs1`-`rs3`, `rf`, `is1`-`is3`, `if`) to its
  already-expanded bytes. An expansion can also fault after part of its
  output was produced.
- `run`: an oracle giving the exit status of a spawned command, or the I/O
  error that spawning it raised.
- `console`: the outcomes of the Windows console operations. `NoConsole` is a
  target without a Windows console, where every operation succeeds.
- `terminal`: the Unix terminal. It gives the outcome of reading the
  attributes (a nix errno, or the I/O error of opening `/dev/tty`) and the
  outcome of writing them back (a nix errno), or `NoTermios` on other
  targets.
- `sink`: a writer that accepts every byte, or one that accepts a fixed
  number of bytes and then fails. Rust's `write_all` keeps a partial write, and
  so does the model.

`Screen.ClearTo` returns an `Effect`. It holds the bytes the sink accepted, the
calls made outside the sink (spawned commands, console operations, the
attributes handed to `tcsetattr`) and the `Ok`/`Err` result. Bytes written
before an error stay written, because every write in the source is checked
with `?`.

Files: `wrappers.dfy` (Option/Result/Outcome), `bytes.dfy` (bytes, ASCII
literals), `errors.dfy` (`Error`), `sinks.dfy` (the sink and `write_all`),
`escapes.dfy` (the escape catalogue), `capabilities.dfy` (terminfo capabilities
and their emission), `termios.dfy` (`mod unix`), `screen.dfy` (`ClearScreen` and
`clear_to`), `properties.dfy` (properties relating several calls).

## Model

| member | source | states |
|---|---|---|
| `Sinks.WriteAll` | src/lib.rs:413-414 | `write_all` either writes the whole chunk and succeeds, or fills the sink, keeps that prefix and fails with the sink's error; success happens exactly when the chunk fits |
| `Sinks.WriteEach` | src/lib.rs:413-420 | a run of `write_all(..)?` statements writes a prefix of the chunks' concatenation; it succeeds exactly when the whole concatenation fits, in which case it writes all of it; on failure the sink is full |
| `Escapes.CatalogueBytes` | src/lib.rs:311-313 | `ESC`, `CSI` and `RIS` are the bytes `1B`, `1B 5B` and `63`; the per-strategy constants likewise hold the bytes of their `b"..."` literals |
| `Capabilities.Emit` | src/lib.rs:336 | writing one expanded capability: when its output fits, all of it stays written and the write fails with an expansion error exactly when the expansion faulted; when it does not fit, the sink is filled to capacity with the leading bytes and the sink's own failure is reported as a terminfo I/O error, on the assumption that the terminfo crate hands each expanded byte straight to the sink and returns a write failure as its own I/O error (see "## Left out") |
| `Capabilities.EmitPresent` | src/lib.rs:366-381 | the present capabilities of a group are written in order, absent ones skipped, and the run stops at the first failure with every earlier byte kept: it ends exactly as a single write of `UpToFault` (the outputs up to and including the first faulty expansion) would, so a full sink keeps its first `capacity` bytes and reports its own failure; the run succeeds exactly when all present ones expand and fit; with none present nothing is written and the run succeeds |
| `Termios.AllFlagsListed` | src/lib.rs:564-567 | the `all()` masks hold every flag of their group |
| `Termios.ResetTermios` | src/lib.rs:563-568 | after the reset no flag of any of the four groups is set, and the control characters are unchanged |
| `Termios.Configure` | src/lib.rs:536-561 | reset then the mode's closure yields exactly the flags documented for that mode in each group, whatever the starting flags, with the control characters unchanged |
| `Termios.WriteTermios` | src/lib.rs:570-587 | off Unix it succeeds doing nothing; a failure of `isatty` or `tcgetattr` is returned as `Nix` and a failure to open `/dev/tty` as `Io`, with no `tcsetattr` call; otherwise it hands `tcsetattr` exactly the documented flags and succeeds exactly when that call does, returning its failure as `Nix`; it never fails with any other error |
| `Screen.WriteFixed` | src/lib.rs:408-421 | a fixed write list makes no outside calls, writes a prefix of its bytes, succeeds exactly when they all fit, and otherwise fails with `Error::Io` of the sink's error |
| `Screen.TerminfoClear` | src/lib.rs:331-344 | a load failure is a terminfo error with nothing written; without `clear` it fails with `TerminfoCap("clear")` and writes nothing; with `clear` and no `E3` it writes exactly `clear`; with both it writes `clear` then `E3`; when `clear` is present the call succeeds exactly when every present capability expands cleanly and everything fits; otherwise the bytes of `clear` (and then of `E3`, if `clear` expanded) stay written up to the sink's capacity, a full sink reports its own failure as a terminfo I/O error, and a fault that fits is an expansion error |
| `Screen.TerminfoOne` | src/lib.rs:345-360 | one capability is required: when absent the arm fails with its name and writes nothing; when present it writes exactly that capability and succeeds exactly when it expands cleanly and fits; otherwise its output stays written up to the sink's capacity, and the failure is the sink's own error as a terminfo I/O error, or an expansion error when the output fit |
| `Screen.TerminfoResetting` | src/lib.rs:361-407 | with any reset string present it writes the present reset strings in order; otherwise with any init string present it writes the present init strings in order; with neither it fails with `TerminfoCap("reset")` and writes nothing; within the chosen tier the call succeeds exactly when every present capability of that tier expands cleanly and fits, and otherwise the tier's bytes up to its first faulty expansion stay written up to the sink's capacity, with the sink's own failure or an expansion error reported |
| `Screen.RunCommand` | src/lib.rs:447-464 | a command strategy writes nothing and spawns its one command; it succeeds exactly on a success status; a spawn error propagates as `Error::Io`; a non-success status becomes `Command(name, status)` |
| `Screen.TermiosArm` | src/lib.rs:483-484 | the terminal-mode strategies write nothing to the sink; off Unix they succeed with no call; when the terminal cannot be reached or read they return that error (`Nix` or `Io`) with no call; otherwise they make one `tcsetattr` call with exactly the documented flags and succeed exactly when it does, failing with its `Nix` error otherwise; every failure is `Nix` or `Io` |
| `Screen.ClearTo` | src/lib.rs:329-488 | no strategy overfills the sink; strategies that do not write to the sink leave it empty; the sink-writing strategies other than `WindowsVtClear` make no outside calls |
| `Properties.CatalogueMatchesWire` | src/lib.rs:408-446 | the catalogue's write lists concatenate to the documented wire bytes, byte by byte |
| `Properties.FixedSequenceWritesWireBytes` | src/lib.rs:408-482 | `XtermClear`, `XtermReset`, `VtRis` and `VtLeaveAlt` write exactly `ESC [ H ESC [ 2 J ESC [ 3 J`, `ESC c ESC [ ! p ESC [ ? 3 ; 4 l ESC [ 4 l ESC > ESC [ ? 6 9 l`, `ESC c` and `ESC [ ? 1 0 4 9 l` on a sink that never fails; they fail only when the sink does, and then with `Error::Io` |
| `Properties.FixedSequenceIgnoresEnvironment` | src/lib.rs:408-446 | a fixed-sequence strategy depends on nothing but the sink |
| `Properties.WindowsVtClearCombinesErrors` | src/lib.rs:466-470 | `WindowsVtClear` writes what `XtermClear` writes even when enabling VT mode failed; a sink error wins; otherwise the result is `win::vt()`'s; without a Windows console it behaves as `XtermClear` |
| `Properties.ConsoleStrategies` | src/lib.rs:471-473 | `WindowsVt`, `WindowsConsoleClear`, `WindowsConsoleBlank` and `WindowsCooked` write nothing, call `win::vt`, `win::clear`, `win::blank` and `win::cooked` respectively, and return that call's outcome; without a Windows console they succeed |
| `Properties.SingleCapabilityStrategies` | src/lib.rs:345-360 | `TerminfoScreen` consults only `clear` and `TerminfoScrollback` only the `E3` slot: databases agreeing on that one capability give the same effect |
| `Properties.EmitPresentReadsOnlyItsGroup` | src/lib.rs:366-381 | emitting a group depends only on the database entries of that group's capabilities |
| `Properties.ResetGroupShortCircuits` | src/lib.rs:383-385 | once any reset string exists, the init strings are never consulted: databases agreeing on the reset strings give the same effect |
| `Properties.InitStringFallback` | src/lib.rs:387-402 | with no reset string, exactly one init string, which expands cleanly, and a sink that holds it, `TerminfoReset` succeeds writing exactly that string, whatever else the database holds |
| `Properties.UpToFaultWithoutFault` | src/lib.rs:366-402 | when no present capability of a group faults, what the group sets out to write is all its present outputs in order |
| `Properties.EmitPresentTruncates` | src/lib.rs:366-402 | on a failing sink a capability group writes exactly the first `capacity` bytes of what it writes to a sink that never fails and reports the sink's failure, and does the same as there when that fits |
| `Properties.SinkFailureTruncates` | src/lib.rs:329-488 | for every strategy, a failing sink only truncates: the same outside calls, exactly the same effect when everything fits, and otherwise exactly the first `capacity` bytes of the never-failing run's bytes, none taken back, and a failure |
| `Properties.CommandStrategies` | src/lib.rs:447-464 | `TputClear`, `TputReset` and `Cls` spawn `tput clear`, `tput reset` and `cls`, write nothing, succeed on exit code 0 and report any other status under the names "tput clear", "tput reset" and "cls" |
| `Properties.ConfigureForgetsStartingFlags` | src/lib.rs:563-575 | the written configuration does not depend on the flags the terminal had |
| `Properties.WellDoneExtendsCooked` | src/lib.rs:536-561 | well-done's input, output and control groups are strict supersets of cooked's, and its local group contains cooked's |
| `Properties.ConfigureIsIdempotent` | src/lib.rs:570-575 | configuring a terminal that is already in a mode changes nothing |
| `Properties.TerminalModeWithoutTerminal` | src/lib.rs:570-577 | off Unix, or when the terminal cannot be reached or read, `VtCooked` and `VtWellDone` make no `tcsetattr` call and write nothing; they succeed off Unix, and otherwise fail with `Nix` of the `isatty`/`tcgetattr` errno or `Io` of the `/dev/tty` open error |
| `Properties.TerminalModeErrors` | src/lib.rs:570-587 | `VtCooked` and `VtWellDone` fail only with `Nix` or `Io`, and with `Io` only when opening `/dev/tty` failed with that error |
| `Properties.TerminalModeStrategies` | src/lib.rs:483-484 | `VtCooked` and `VtWellDone` hand `tcsetattr` exactly the documented flags of their mode, keep the control characters, write nothing, and succeed exactly when `tcsetattr` does, failing with its errno as `Nix` |

## Left out

- `Default for ClearScreen` (src/lib.rs:305-309) is `todo!()` and has no behaviour to model.
- `clear()` and `ClearScreen::clear` (src/lib.rs:317-320, 492-494) only pass standard output to `clear_to`.
- Loading and parsing the terminfo database (`Database::from_env`) is replaced by its outcome in the environment.
- Parameter expansion is replaced by already-expanded bytes. The expansion context shared between the capabilities of one strategy is therefore not modelled, and neither is any dependence of one capability's expansion on an earlier one.
- `Capabilities.Emit`: the model assumes that the terminfo crate's `expand().to(w)` hands each expanded byte straight to the sink and returns a write failure as its own I/O error, which `?` turns into `Error::Terminfo`. How the crate treats a failing writer is not part of this model; buffering inside the crate, which could drop a late write error and return `Ok` with a truncated sink, is not modelled. The same assumption underlies `Capabilities.EmitPresent`, `Screen.TerminfoClear`, `Screen.TerminfoOne` and `Screen.TerminfoResetting`.
- Process spawning (`Command::new(..).status()`) is replaced by an exit-status oracle.
- In `write_termios`, choosing standard input or `/dev/tty`, `isatty`, `tcgetattr` and `tcsetattr` are OS calls. They are collapsed into two outcomes: reading the attributes, and writing them back.
- The Windows console functions (src/lib.rs:591-609) are `todo!()` on Windows and `Ok(())` elsewhere. They are replaced by outcomes in the environment.
- The flag groups are sets of tags. Multi-bit fields (character size, output delays) are single tags, and unknown bits are not modelled; the reset clears every tag either way.
- The `Termios` record keeps only the four flag groups and the control characters. nix's `Termios` also carries the line discipline and the input/output speeds, which are not modelled, so "control characters unchanged" does not cover those fields.
- `Effect` records the bytes written and the outside calls as two lists. It does not record how writes and outside calls interleave.
- The garbled first doc line (src/lib.rs:1) and the derived traits of `ClearScreen` carry no behaviour.
- `Screen.ClearTo`: for `WindowsVtClear` the model runs the `XtermClear` write list directly, where the source calls `Self::XtermClear.clear_to(w)`. `Properties.WindowsVtClearCombinesErrors` proves the two agree.
- `TerminfoScrollback` and `Terminfo` look up the terminfo crate's `User3` capability but report a missing one as `"E3"`. The model keeps both as written; the crate's mapping from `User3` to a terminfo name is not part of this model.

=== FILE: bytes.dfy ===
/** Bytes and byte strings, as written to an output sink. */
module Bytes {

  newtype byte = x: int | 0 <= x < 0x100

  type Bytes = seq<byte>

  /** True when every character of `s` is 7-bit ASCII. */
  predicate IsAscii(s: string) {
    forall i :: 0 <= i < |s| ==> s[i] as int < 0x80
  }

  /** The bytes of an ASCII string literal such as `b"2J"`. */
  function Ascii(s: string): (r: Bytes)
    requires IsAscii(s)
    ensures |r| == |s|
    ensures forall i :: 0 <= i < |s| ==> r[i] as int == s[i] as int
  {
    if s == "" then [] else [s[0] as int as byte] + Ascii(s[1..])
  }

  /** The chunks of `chunks` written one after the other. */
  function Concat(chunks: seq<Bytes>): Bytes {
    if chunks == [] then [] else chunks[0] + Concat(chunks[1..])
  }

  lemma {:induction false} ConcatCons(a: Bytes, rest: seq<Bytes>)
    ensures Concat([a] + rest) == a + Concat(rest)
  {
    assert ([a] + rest)[1..] == rest;
  }

  /** Writing two runs of chunks one after the other writes their bytes one
      after the other. */
  lemma {:induction false} ConcatAppend(xs: seq<Bytes>, ys: seq<Bytes>)
    ensures Concat(xs + ys) == Concat(xs) + Concat(ys)
    decreases |xs|
  {
    if xs == [] {
      assert xs + ys == ys;
    } else {
      assert (xs + ys)[1..] == xs[1..] + ys;
      ConcatAppend(xs[1..], ys);
    }
  }
}

=== FILE: capabilities.dfy ===
/** Terminfo capabilities as the dispatcher sees them: looked up by name in a
    database loaded from the environment, expanded, and written to the sink. */
module Capabilities {
  import opened Wrappers
  import opened Bytes
  import opened Errors
  import opened Sinks

  /** The capabilities the dispatcher consults, named as in the terminfo crate:
      `clear`, the user slot the library uses for `E3`, `rs1`-`rs3`, `rf`,
      `is1`-`is3` and `if`. */
  datatype Cap =
    | ClearScreen | User3
    | Reset1String | Reset2String | Reset3String | ResetFile
    | Init1String | Init2String | Init3String | InitFile

  /** What expanding a capability produces: all its bytes, or some bytes
      followed by an expansion fault. */
  datatype Expansion = Expanded(bytes: Bytes) | Faulty(partial: Bytes) {

    /** The bytes the expansion hands to the sink. */
    function Output(): Bytes {
      if Expanded? then bytes else partial
    }
  }

  /** A loaded database: the capabilities it has, already expanded. */
  type Database = map<Cap, Expansion>

  /** The reset-string group, consulted first by `TerminfoReset`. */
  const ResetCaps: seq<Cap> := [Reset1String, Reset2String, Reset3String, ResetFile]

  /** The init-string group, consulted only when no reset string exists. */
  const InitCaps: seq<Cap> := [Init1String, Init2String, Init3String, InitFile]

  /** True when the database has `c` and it expands without fault. */
  predicate CleanlyExpands(db: Database, c: Cap) {
    c in db && db[c].Expanded?
  }

  /** True when the database has at least one of `caps`. */
  predicate AnyPresent(db: Database, caps: seq<Cap>) {
    exists i :: 0 <= i < |caps| && caps[i] in db
  }

  /** True when every one of `caps` the database has expands without fault. */
  predicate AllExpand(db: Database, caps: seq<Cap>) {
    forall i :: 0 <= i < |caps| && caps[i] in db ==> db[caps[i]].Expanded?
  }

  /** The outputs of the capabilities of `caps` the database has, in order:
      the reference for what emitting a group writes. */
  function Outputs(db: Database, caps: seq<Cap>): seq<Bytes> {
    if caps == [] then []
    else (if caps[0] in db then [db[caps[0]].Output()] else []) + Outputs(db, caps[1..])
  }

  /** The bytes a `?`-chained run over `caps` sets out to write: the outputs
      of the capabilities the database has, in order, up to and including
      the first one whose expansion faults. */
  function UpToFault(db: Database, caps: seq<Cap>): Bytes {
    if caps == [] then []
    else if caps[0] !in db then UpToFault(db, caps[1..])
    else if db[caps[0]].Faulty? then db[caps[0]].partial
    else db[caps[0]].bytes + UpToFault(db, caps[1..])
  }

  /** How a `?`-chained run of capability writes ends when, after `out`, it
      sets out to write `attempted` and its last expansion faults exactly when
      `faulted`. If everything fits, all of it stays written and the run ends
      in an expansion error exactly when it faulted. Otherwise the sink is
      filled to capacity with the leading bytes, none of them taken back, and
      the sink's own failure is reported through the terminfo crate. */
  predicate EndsWriting(sink: Sink, out: Bytes, attempted: Bytes, faulted: bool, w: Written<Error>) {
    if Accepts(sink, |out| + |attempted|) then
      w == Written(out + attempted, if faulted then Fail(Terminfo(Expand)) else Pass)
    else
      w == Written((out + attempted)[..sink.capacity], Fail(Terminfo(TerminfoIo(sink.failure))))
  }

  /** A run that writes `a` in full and then ends as a run over `b` ends as
      one run over `a + b`. */
  lemma EndsWritingThen(sink: Sink, out: Bytes, a: Bytes, b: Bytes, faulted: bool, w: Written<Error>)
    requires EndsWriting(sink, out + a, b, faulted, w)
    ensures EndsWriting(sink, out, a + b, faulted, w)
  {
    assert out + a + b == out + (a + b);
  }

  /** A run whose first write already overflows the sink ends the same way
      whatever it would have written after that. */
  lemma EndsWritingCut(sink: Sink, out: Bytes, a: Bytes, b: Bytes, faulted: bool, w: Written<Error>)
    requires !Accepts(sink, |out| + |a|)
    requires EndsWriting(sink, out, a, false, w)
    ensures EndsWriting(sink, out, a + b, faulted, w)
  {
    assert (out + (a + b))[..sink.capacity] == (out + a)[..sink.capacity];
  }

  /** When the first capability of `caps` is absent or expands cleanly,
      the group expands cleanly exactly when the rest does. */
  lemma AllExpandTail(db: Database, caps: seq<Cap>)
    requires caps != []
    requires caps[0] in db ==> db[caps[0]].Expanded?
    ensures AllExpand(db, caps) <==> AllExpand(db, caps[1..])
  {
    if AllExpand(db, caps[1..]) {
      forall i | 0 <= i < |caps| && caps[i] in db ensures db[caps[i]].Expanded? {
        if i > 0 {
          assert caps[i] == caps[1..][i - 1];
        }
      }
    }
  }

  /** `seq.expand().to(w)?`, assuming the terminfo crate hands the expanded
      bytes straight to the sink and returns a sink failure as its own I/O
      error, which `?` turns into a terminfo error. */
  function Emit(sink: Sink, out: Bytes, x: Expansion): (w: Written<Error>)
    requires Accepts(sink, |out|)
    ensures Accepts(sink, |w.out|)
    ensures out <= w.out <= out + x.Output()
    ensures w.result.Pass? <==> x.Expanded? && Accepts(sink, |out| + |x.bytes|)
    ensures w.result.Pass? ==> w.out == out + x.bytes
    ensures w.result.Fail? ==> w.result.error.Terminfo?
    ensures EndsWriting(sink, out, x.Output(), x.Faulty?, w)
  {
    var v := WriteAll(sink, out, x.Output());
    if v.result.Fail? then Written(v.out, Fail(Terminfo(TerminfoIo(v.result.error))))
    else if x.Faulty? then Written(v.out, Fail(Terminfo(Expand)))
    else Written(v.out, Pass)
  }

  /** One `if let Some(seq) = info.get::<C>() { seq.expand()...to(w)?; }` per
      capability of `caps`, in order: absent ones are skipped, the first
      failure ends the run. */
  function EmitPresent(db: Database, sink: Sink, out: Bytes, caps: seq<Cap>): (w: Written<Error>)
    requires Accepts(sink, |out|)
    ensures Accepts(sink, |w.out|)
    ensures out <= w.out <= out + Concat(Outputs(db, caps))
    ensures w.result.Pass? <==> AllExpand(db, caps) && Accepts(sink, |out| + |Concat(Outputs(db, caps))|)
    ensures w.result.Pass? ==> w.out == out + Concat(Outputs(db, caps))
    ensures w.result.Fail? ==> w.result.error.Terminfo?
    ensures !AnyPresent(db, caps) ==> w == Written(out, Pass)
    ensures EndsWriting(sink, out, UpToFault(db, caps), !AllExpand(db, caps), w)
    decreases |caps|
  {
    if caps == [] then
      assert out + [] == out;
      Written(out, Pass)
    else if caps[0] !in db then
      assert Outputs(db, caps) == Outputs(db, caps[1..]);
      AllExpandTail(db, caps);
      EmitPresent(db, sink, out, caps[1..])
    else
      var x := db[caps[0]];
      var first := Emit(sink, out, x);
      if x.Faulty? then
        assert !AllExpand(db, caps) by { assert caps[0] in db; }
        first
      else
        AllExpandTail(db, caps);
        if first.result.Fail? then
          EndsWritingCut(sink, out, x.bytes, UpToFault(db, caps[1..]), !AllExpand(db, caps), first);
          first
        else
          var rest := EmitPresent(db, sink, first.out, caps[1..]);
          EndsWritingThen(sink, out, x.bytes, UpToFault(db, caps[1..]), !AllExpand(db, caps), rest);
          rest
  }
}

=== FILE: errors.dfy ===
/** The error type of the library (src/lib.rs, `enum Error`) and its parts. */
module Errors {

  /** An I/O error, known only by an opaque code. */
  datatype IoError = IoError(code: int)

  /** The exit status of a child process, as Unix reports it. */
  datatype ExitStatus = Exited(code: int) | Signalled(signal: nat) {

    /** Rust's `ExitStatus::success`: the process exited with code zero. */
    predicate Success() {
      Exited? && code == 0
    }
  }

  /** The failures the terminfo crate reports: I/O (including writes made while
      expanding a capability into the sink), a missing or unparsable database,
      and a capability that cannot be expanded. */
  datatype TerminfoError = TerminfoIo(io: IoError) | NotFound | Parse | Expand

  /** The library's error: one case per variant of the source's `Error`. */
  datatype Error =
    | Io(io: IoError)
    | Command(name: string, status: ExitStatus)
    | Nix(errno: nat)
    | Terminfo(cause: TerminfoError)
    | TerminfoCap(cap: string)
}

=== FILE: escapes.dfy ===
/** The raw control sequences the fixed-sequence strategies write
    (src/lib.rs, `ESC`, `CSI`, `RIS` and the per-strategy constants). */
module Escapes {
  import opened Bytes

  const ESC: Bytes := [0x1B]
  const CSI: Bytes := ESC + Ascii("[")
  const RIS: Bytes := Ascii("c")

  // XtermClear
  const CURSOR_HOME: Bytes := Ascii("H")
  const ERASE_SCREEN: Bytes := Ascii("2J")
  const ERASE_SCROLLBACK: Bytes := Ascii("3J")

  // XtermReset
  const STR: Bytes := Ascii("!p")
  const RESET_WIDTH_AND_SCROLL: Bytes := Ascii("?3;4l")
  const RESET_REPLACE: Bytes := Ascii("4l")
  const RESET_KEYPAD: Bytes := Ascii(">")
  const RESET_MARGINS: Bytes := Ascii("?69l")

  // VtLeaveAlt
  const LEAVE_ALT: Bytes := Ascii("?1049l")

  /** The `write_all` calls of each fixed-sequence strategy, in order. */
  const XtermClearWrites: seq<Bytes> :=
    [CSI, CURSOR_HOME, CSI, ERASE_SCREEN, CSI, ERASE_SCROLLBACK]

  const XtermResetWrites: seq<Bytes> :=
    [ESC, RIS, CSI, STR, CSI, RESET_WIDTH_AND_SCROLL, CSI, RESET_REPLACE,
     ESC, RESET_KEYPAD, CSI, RESET_MARGINS]

  const VtRisWrites: seq<Bytes> := [ESC, RIS]

  const VtLeaveAltWrites: seq<Bytes> := [CSI, LEAVE_ALT]

  /** The catalogue's byte values, as the source spells them in `b"..."`
      literals. */
  lemma CatalogueBytes()
    ensures ESC == [0x1B] && CSI == [0x1B, 0x5B] && RIS == [0x63]
    ensures CURSOR_HOME == [0x48] && ERASE_SCREEN == [0x32, 0x4A] && ERASE_SCROLLBACK == [0x33, 0x4A]
    ensures STR == [0x21, 0x70] && RESET_WIDTH_AND_SCROLL == [0x3F, 0x33, 0x3B, 0x34, 0x6C]
    ensures RESET_REPLACE == [0x34, 0x6C] && RESET_KEYPAD == [0x3E]
    ensures RESET_MARGINS == [0x3F, 0x36, 0x39, 0x6C]
    ensures LEAVE_ALT == [0x3F, 0x31, 0x30, 0x34, 0x39, 0x6C]
  {
  }
}

=== FILE: properties.dfy ===
/** Properties that relate several `clear_to` calls, or relate a call to an
    independent statement of what the library promises. */
module Properties {
  import opened Wrappers
  import opened Bytes
  import opened Errors
  import opened Sinks
  import opened Escapes
  import opened Capabilities
  import opened Termios
  import opened Screen

  // ---------------------------------------------------------------------
  // Fixed-sequence strategies

  /** The byte strings the fixed-sequence strategies are documented to
      write, spelled out byte by byte. */
  function WireBytes(s: ClearScreen): Bytes
    requires s.IsFixedSequence()
  {
    match s
    // ESC [ H   ESC [ 2 J   ESC [ 3 J
    case XtermClear => [0x1B, 0x5B, 0x48, 0x1B, 0x5B, 0x32, 0x4A, 0x1B, 0x5B, 0x33, 0x4A]
    // ESC c   ESC [ ! p   ESC [ ? 3 ; 4 l   ESC [ 4 l   ESC >   ESC [ ? 6 9 l
    case XtermReset =>
      [0x1B, 0x63] + [0x1B, 0x5B, 0x21, 0x70] + [0x1B, 0x5B, 0x3F, 0x33, 0x3B, 0x34, 0x6C]
      + [0x1B, 0x5B, 0x34, 0x6C] + [0x1B, 0x3E] + [0x1B, 0x5B, 0x3F, 0x36, 0x39, 0x6C]
    // ESC c
    case VtRis => [0x1B, 0x63]
    // ESC [ ? 1 0 4 9 l
    case VtLeaveAlt => [0x1B, 0x5B, 0x3F, 0x31, 0x30, 0x34, 0x39, 0x6C]
  }

  lemma ConcatTwo(a: Bytes, b: Bytes)
    ensures Concat([a, b]) == a + b
  {
    ConcatCons(b, []);
    ConcatCons(a, [b]);
  }

  lemma ConcatSix(a: Bytes, b: Bytes, c: Bytes, d: Bytes, e: Bytes, f: Bytes)
    ensures Concat([a, b, c, d, e, f]) == a + b + c + d + e + f
  {
    ConcatCons(f, []);
    ConcatCons(e, [f]);
    ConcatCons(d, [e, f]);
    ConcatCons(c, [d, e, f]);
    ConcatCons(b, [c, d, e, f]);
    ConcatCons(a, [b, c, d, e, f]);
  }

  lemma XtermResetFront()
    ensures Concat([ESC, RIS, CSI, STR, CSI, RESET_WIDTH_AND_SCROLL])
            == [0x1B, 0x63] + [0x1B, 0x5B, 0x21, 0x70] + [0x1B, 0x5B, 0x3F, 0x33, 0x3B, 0x34, 0x6C]
  {
    ConcatSix(ESC, RIS, CSI, STR, CSI, RESET_WIDTH_AND_SCROLL);
    CatalogueBytes();
  }

  lemma XtermResetBack()
    ensures Concat([CSI, RESET_REPLACE, ESC, RESET_KEYPAD, CSI, RESET_MARGINS])
            == [0x1B, 0x5B, 0x34, 0x6C] + [0x1B, 0x3E] + [0x1B, 0x5B, 0x3F, 0x36, 0x39, 0x6C]
  {
    ConcatSix(CSI, RESET_REPLACE, ESC, RESET_KEYPAD, CSI, RESET_MARGINS);
    CatalogueBytes();
  }

  lemma XtermClearWire()
    ensures Concat(XtermClearWrites) == WireBytes(XtermClear)
  {
    ConcatSix(CSI, CURSOR_HOME, CSI, ERASE_SCREEN, CSI, ERASE_SCROLLBACK);
    CatalogueBytes();
  }

  lemma XtermResetWire()
    ensures Concat(XtermResetWrites) == WireBytes(XtermReset)
  {
    var front := [ESC, RIS, CSI, STR, CSI, RESET_WIDTH_AND_SCROLL];
    var back := [CSI, RESET_REPLACE, ESC, RESET_KEYPAD, CSI, RESET_MARGINS];
    XtermResetFront();
    XtermResetBack();
    assert XtermResetWrites == front + back;
    ConcatAppend(front, back);
  }

  lemma VtRisWire()
    ensures Concat(VtRisWrites) == WireBytes(VtRis)
  {
    ConcatTwo(ESC, RIS);
    CatalogueBytes();
  }

  lemma VtLeaveAltWire()
    ensures Concat(VtLeaveAltWrites) == WireBytes(VtLeaveAlt)
  {
    ConcatTwo(CSI, LEAVE_ALT);
    CatalogueBytes();
  }

  /** The catalogue's `write_all` lists add up to the documented wire bytes. */
  lemma CatalogueMatchesWire(s: ClearScreen)
    requires s.IsFixedSequence()
    ensures s.XtermClear? ==> Concat(XtermClearWrites) == WireBytes(s)
    ensures s.XtermReset? ==> Concat(XtermResetWrites) == WireBytes(s)
    ensures s.VtRis? ==> Concat(VtRisWrites) == WireBytes(s)
    ensures s.VtLeaveAlt? ==> Concat(VtLeaveAltWrites) == WireBytes(s)
  {
    match s
    case XtermClear => XtermClearWire();
    case XtermReset => XtermResetWire();
    case VtRis => VtRisWire();
    case VtLeaveAlt => VtLeaveAltWire();
  }

  /** A fixed-sequence strategy writes exactly its documented bytes, touches
      nothing else, and fails only when the sink does, keeping the bytes the
      sink took. */
  lemma FixedSequenceWritesWireBytes(s: ClearScreen, env: Env)
    requires s.IsFixedSequence()
    ensures var e := ClearTo(s, env);
            && e.calls == []
            && e.written <= WireBytes(s)
            && (e.result.Pass? <==> Accepts(env.sink, |WireBytes(s)|))
            && (e.result.Fail? ==> e.result.error == Io(env.sink.failure))
            && (env.sink.Unbounded? ==> e == Effect(WireBytes(s), [], Pass))
  {
    CatalogueMatchesWire(s);
  }

  /** A fixed-sequence strategy depends on nothing but the sink: two calls
      with equal sinks do the same thing. */
  lemma FixedSequenceIgnoresEnvironment(s: ClearScreen, env1: Env, env2: Env)
    requires s.IsFixedSequence()
    requires env1.sink == env2.sink
    ensures ClearTo(s, env1) == ClearTo(s, env2)
  {
  }

  // ---------------------------------------------------------------------
  // WindowsVtClear

  /** `WindowsVtClear` writes what `XtermClear` writes even when enabling VT
      mode failed; a sink failure wins over the VT-mode outcome. Without a
      Windows console it is `XtermClear`. */
  lemma WindowsVtClearCombinesErrors(env: Env)
    ensures var e := ClearTo(WindowsVtClear, env);
            var x := ClearTo(XtermClear, env);
            && e.written == x.written
            && e.calls == [ConsoleCall(EnableVt)]
            && (x.result.Fail? ==> e.result == x.result)
            && (x.result.Pass? ==> e.result == env.console.vt)
            && (env.console == NoConsole ==> e.result == x.result)
  {
  }

  /** The console strategies write nothing, make their one console call and
      return its outcome; without a Windows console they all succeed. */
  lemma ConsoleStrategies(s: ClearScreen, env: Env)
    requires s.WindowsVt? || s.WindowsConsoleClear? || s.WindowsConsoleBlank? || s.WindowsCooked?
    ensures var e := ClearTo(s, env);
            && e.written == []
            && (env.console == NoConsole ==> e.result == Pass)
            && (s.WindowsVt? ==> e.calls == [ConsoleCall(EnableVt)] && e.result == env.console.vt)
            && (s.WindowsConsoleClear? ==>
                  e.calls == [ConsoleCall(ConsoleClear)] && e.result == env.console.clear)
            && (s.WindowsConsoleBlank? ==>
                  e.calls == [ConsoleCall(ConsoleBlank)] && e.result == env.console.blank)
            && (s.WindowsCooked? ==>
                  e.calls == [ConsoleCall(ConsoleCooked)] && e.result == env.console.cooked)
  {
  }

  // ---------------------------------------------------------------------
  // TerminfoReset

  /** `TerminfoScreen` consults only `clear` and `TerminfoScrollback` only
      the `E3` slot: databases that agree on that one capability give the
      same effect. */
  lemma SingleCapabilityStrategies(env1: Env, env2: Env)
    requires env1.database.Ok? && env2.database.Ok?
    requires env1.sink == env2.sink
    ensures AgreeOn(env1.database.value, env2.database.value, [Cap.ClearScreen]) ==>
              ClearTo(TerminfoScreen, env1) == ClearTo(TerminfoScreen, env2)
    ensures AgreeOn(env1.database.value, env2.database.value, [User3]) ==>
              ClearTo(TerminfoScrollback, env1) == ClearTo(TerminfoScrollback, env2)
  {
    var db1, db2 := env1.database.value, env2.database.value;
    if AgreeOn(db1, db2, [Cap.ClearScreen]) {
      assert [Cap.ClearScreen][0] == Cap.ClearScreen;
    }
    if AgreeOn(db1, db2, [User3]) {
      assert [User3][0] == User3;
    }
  }

  /** Two databases that agree on every capability of `caps`. */
  predicate AgreeOn(db1: Database, db2: Database, caps: seq<Cap>) {
    forall i :: 0 <= i < |caps| ==>
      && (caps[i] in db1 <==> caps[i] in db2)
      && (caps[i] in db1 ==> db1[caps[i]] == db2[caps[i]])
  }

  /** Emitting a group consults only the group's own capabilities. */
  lemma {:induction false} EmitPresentReadsOnlyItsGroup(
    db1: Database, db2: Database, sink: Sink, out: Bytes, caps: seq<Cap>)
    requires Accepts(sink, |out|)
    requires AgreeOn(db1, db2, caps)
    ensures EmitPresent(db1, sink, out, caps) == EmitPresent(db2, sink, out, caps)
    ensures AnyPresent(db1, caps) <==> AnyPresent(db2, caps)
    decreases |caps|
  {
    if caps != [] {
      assert AgreeOn(db1, db2, caps[1..]) by {
        forall i | 0 <= i < |caps[1..]|
          ensures (caps[1..][i] in db1 <==> caps[1..][i] in db2)
          ensures (caps[1..][i] in db1 ==> db1[caps[1..][i]] == db2[caps[1..][i]])
        {
          assert caps[1..][i] == caps[i + 1];
        }
      }
      assert caps[0] in db1 <==> caps[0] in db2 by { assert 0 < |caps|; }
      if caps[0] !in db1 {
        EmitPresentReadsOnlyItsGroup(db1, db2, sink, out, caps[1..]);
      } else {
        var first := Emit(sink, out, db1[caps[0]]);
        if first.result.Pass? {
          EmitPresentReadsOnlyItsGroup(db1, db2, sink, first.out, caps[1..]);
        }
      }
    }
  }

  /** Once any reset string exists, the init strings are never consulted:
      databases that agree on the reset strings give the same effect,
      whatever init strings they have. */
  lemma ResetGroupShortCircuits(env1: Env, env2: Env)
    requires env1.database.Ok? && env2.database.Ok?
    requires env1.sink == env2.sink
    requires AnyPresent(env1.database.value, ResetCaps)
    requires AgreeOn(env1.database.value, env2.database.value, ResetCaps)
    ensures ClearTo(TerminfoReset, env1) == ClearTo(TerminfoReset, env2)
  {
    EmitPresentReadsOnlyItsGroup(env1.database.value, env2.database.value, env1.sink, [], ResetCaps);
  }

  /** No capability of `caps` is in the database. */
  lemma {:induction false} OutputsOfAbsent(db: Database, caps: seq<Cap>)
    requires forall i :: 0 <= i < |caps| ==> caps[i] !in db
    ensures Outputs(db, caps) == []
    decreases |caps|
  {
    if caps != [] {
      assert caps[0] !in db;
      OutputsOfAbsent(db, caps[1..]);
    }
  }

  /** When `c` is the only capability of a duplicate-free `caps` that the
      database has, emitting the group emits `c` alone. */
  lemma {:induction false} OutputsOfSingle(db: Database, caps: seq<Cap>, k: nat)
    requires k < |caps|
    requires forall i, j :: 0 <= i < j < |caps| ==> caps[i] != caps[j]
    requires forall i :: 0 <= i < |caps| ==> (caps[i] in db <==> i == k)
    ensures Outputs(db, caps) == [db[caps[k]].Output()]
    decreases |caps|
  {
    if k == 0 {
      OutputsOfAbsent(db, caps[1..]);
    } else {
      assert caps[0] !in db;
      OutputsOfSingle(db, caps[1..], k - 1);
    }
  }

  /** The fallback tier: with no reset string and a single init string that
      expands cleanly and fits, the strategy succeeds and writes exactly that
      init string, whatever else the database holds. */
  lemma InitStringFallback(env: Env, k: nat, bytes: Bytes)
    requires k < |InitCaps|
    requires env.database.Ok?
    requires !AnyPresent(env.database.value, ResetCaps)
    requires forall i :: 0 <= i < |InitCaps| ==> (InitCaps[i] in env.database.value <==> i == k)
    requires env.database.value[InitCaps[k]] == Expanded(bytes)
    requires Accepts(env.sink, |bytes|)
    ensures ClearTo(TerminfoReset, env) == Effect(bytes, [], Pass)
  {
    var db := env.database.value;
    assert AnyPresent(db, InitCaps) by { assert InitCaps[k] in db; }
    assert AllExpand(db, InitCaps);
    OutputsOfSingle(db, InitCaps, k);
    ConcatCons(bytes, []);
  }

  /** Without an expansion fault, the bytes a group sets out to write are
      the outputs of all its present capabilities. */
  lemma {:induction false} UpToFaultWithoutFault(db: Database, caps: seq<Cap>)
    requires AllExpand(db, caps)
    ensures UpToFault(db, caps) == Concat(Outputs(db, caps))
    decreases |caps|
  {
    if caps != [] {
      AllExpandTail(db, caps);
      UpToFaultWithoutFault(db, caps[1..]);
      if caps[0] in db {
        assert Outputs(db, caps) == [db[caps[0]].bytes] + Outputs(db, caps[1..]);
        ConcatCons(db[caps[0]].bytes, Outputs(db, caps[1..]));
      } else {
        assert Outputs(db, caps) == Outputs(db, caps[1..]);
      }
    }
  }

  // ---------------------------------------------------------------------
  // Sink failures only truncate

  /** A capability written to a bounded sink writes the leading bytes of
      what it writes to an unbounded one, as many as the sink holds, and
      the same when everything fits. */
  lemma EmitTruncates(sink: Sink, out: Bytes, x: Expansion)
    requires Accepts(sink, |out|)
    ensures var b := Emit(sink, out, x);
            var u := Emit(Unbounded, out, x);
            && b.out <= u.out
            && (Accepts(sink, |u.out|) || b.result.Pass? ==> b == u)
            && (!Accepts(sink, |u.out|) ==>
                  b == Written(u.out[..sink.capacity], Fail(Errors.Terminfo(TerminfoIo(sink.failure)))))
  {
  }

  lemma {:induction false} EmitPresentTruncates(db: Database, sink: Sink, out: Bytes, caps: seq<Cap>)
    requires Accepts(sink, |out|)
    ensures var b := EmitPresent(db, sink, out, caps);
            var u := EmitPresent(db, Unbounded, out, caps);
            && b.out <= u.out
            && (Accepts(sink, |u.out|) || b.result.Pass? ==> b == u)
            && (!Accepts(sink, |u.out|) ==>
                  b == Written(u.out[..sink.capacity], Fail(Errors.Terminfo(TerminfoIo(sink.failure)))))
    decreases |caps|
  {
    if caps != [] && caps[0] in db {
      var b := Emit(sink, out, db[caps[0]]);
      var u := Emit(Unbounded, out, db[caps[0]]);
      EmitTruncates(sink, out, db[caps[0]]);
      if b.result.Pass? {
        EmitPresentTruncates(db, sink, b.out, caps[1..]);
      }
    } else if caps != [] {
      EmitPresentTruncates(db, sink, out, caps[1..]);
    }
  }

  /** The truncation relation between a run on some sink and a run on a
      sink that never fails. */
  predicate Truncates(e: Effect, full: Effect, sink: Sink) {
    && e.written <= full.written
    && e.calls == full.calls
    && (Accepts(sink, |full.written|) ==> e == full)
    && (!Accepts(sink, |full.written|) ==> e.written == full.written[..sink.capacity] && e.result.Fail?)
  }

  lemma TerminfoClearTruncates(env: Env)
    ensures Truncates(TerminfoClear(env), TerminfoClear(env.(sink := Unbounded)), env.sink)
  {
    if env.database.Ok? && Cap.ClearScreen in env.database.value {
      var db := env.database.value;
      EmitTruncates(env.sink, [], db[Cap.ClearScreen]);
      var b := Emit(env.sink, [], db[Cap.ClearScreen]);
      if b.result.Pass? && User3 in db {
        EmitTruncates(env.sink, b.out, db[User3]);
      }
    }
  }

  lemma TerminfoOneTruncates(env: Env, cap: Cap, name: string)
    ensures Truncates(TerminfoOne(env, cap, name), TerminfoOne(env.(sink := Unbounded), cap, name), env.sink)
  {
    if env.database.Ok? && cap in env.database.value {
      EmitTruncates(env.sink, [], env.database.value[cap]);
    }
  }

  lemma TerminfoResettingTruncates(env: Env)
    ensures Truncates(TerminfoResetting(env), TerminfoResetting(env.(sink := Unbounded)), env.sink)
  {
    if env.database.Ok? {
      var db := env.database.value;
      EmitPresentTruncates(db, env.sink, [], ResetCaps);
      EmitPresentTruncates(db, env.sink, [], InitCaps);
    }
  }

  lemma WriteFixedTruncates(sink: Sink, chunks: seq<Bytes>)
    ensures Truncates(WriteFixed(sink, chunks), WriteFixed(Unbounded, chunks), sink)
  {
  }

  lemma WindowsVtClearTruncates(env: Env)
    ensures Truncates(ClearTo(WindowsVtClear, env), ClearTo(WindowsVtClear, env.(sink := Unbounded)), env.sink)
  {
    WriteFixedTruncates(env.sink, XtermClearWrites);
  }

  /** Every write is `?`-checked, so a failing sink only cuts a strategy
      short: it writes the leading bytes of what it would write to a sink
      that never fails, as many as the sink holds, none taken back, and then
      fails; it makes the same calls outside the sink, and does exactly the
      same when everything fits. */
  lemma SinkFailureTruncates(s: ClearScreen, env: Env)
    ensures var e := ClearTo(s, env);
            var full := ClearTo(s, env.(sink := Unbounded));
            && e.written <= full.written
            && e.calls == full.calls
            && (Accepts(env.sink, |full.written|) ==> e == full)
            && (!Accepts(env.sink, |full.written|) ==>
                  e.written == full.written[..env.sink.capacity] && e.result.Fail?)
  {
    match s
    case Terminfo =>
      TerminfoClearTruncates(env);
    case TerminfoScreen =>
      TerminfoOneTruncates(env, Cap.ClearScreen, "clear");
    case TerminfoScrollback =>
      TerminfoOneTruncates(env, User3, "E3");
    case TerminfoReset =>
      TerminfoResettingTruncates(env);
    case XtermClear =>
      WriteFixedTruncates(env.sink, XtermClearWrites);
    case XtermReset =>
      WriteFixedTruncates(env.sink, XtermResetWrites);
    case VtRis =>
      WriteFixedTruncates(env.sink, VtRisWrites);
    case VtLeaveAlt =>
      WriteFixedTruncates(env.sink, VtLeaveAltWrites);
    case WindowsVtClear =>
      WindowsVtClearTruncates(env);
    case _ =>
  }

  // ---------------------------------------------------------------------
  // External commands

  /** The command strategies write nothing, spawn their one command, and
      report a non-success status under the command's name. */
  lemma CommandStrategies(env: Env)
    ensures var tput := Invocation("tput", ["clear"]);
            var e := ClearTo(TputClear, env);
            && e.written == [] && e.calls == [Spawn(tput)]
            && (env.run(tput) == Ok(Exited(0)) ==> e.result == Pass)
            && (forall st :: env.run(tput) == Ok(st) && !st.Success() ==>
                  e.result == Fail(Command("tput clear", st)))
    ensures var tput := Invocation("tput", ["reset"]);
            var e := ClearTo(TputReset, env);
            && e.written == [] && e.calls == [Spawn(tput)]
            && (env.run(tput) == Ok(Exited(0)) ==> e.result == Pass)
            && (forall st :: env.run(tput) == Ok(st) && !st.Success() ==>
                  e.result == Fail(Command("tput reset", st)))
    ensures var cls := Invocation("cls", []);
            var e := ClearTo(Cls, env);
            && e.written == [] && e.calls == [Spawn(cls)]
            && (env.run(cls) == Ok(Exited(0)) ==> e.result == Pass)
            && (forall st :: env.run(cls) == Ok(st) && !st.Success() ==>
                  e.result == Fail(Command("cls", st)))
  {
  }

  // ---------------------------------------------------------------------
  // Terminal modes

  /** The written mode does not depend on the flags the terminal had: two
      terminals that differ only in their flags end up identical. */
  lemma ConfigureForgetsStartingFlags(mode: Mode, t1: Termios, t2: Termios)
    requires t1.controlChars == t2.controlChars
    ensures Configure(mode, t1) == Configure(mode, t2)
  {
  }

  /** Well-done sets every flag cooked sets, in every group, and more. */
  lemma WellDoneExtendsCooked(t: Termios)
    ensures var c := Configure(Cooked, t);
            var w := Configure(WellDone, t);
            && c.input < w.input && c.output < w.output
            && c.control < w.control && c.local <= w.local
  {
  }

  /** Writing a mode twice is writing it once. */
  lemma ConfigureIsIdempotent(mode: Mode, t: Termios)
    ensures Configure(mode, Configure(mode, t)) == Configure(mode, t)
  {
  }

  /** `VtCooked` and `VtWellDone` hand `tcsetattr` exactly the documented
      flags, whatever the terminal's flags were, and report its outcome,
      a failure as the nix error it carries. */
  lemma TerminalModeStrategies(s: ClearScreen, env: Env, t: Termios)
    requires s.VtCooked? || s.VtWellDone?
    requires env.terminal.Tty? && env.terminal.attributes == Ok(t)
    ensures var mode := if s.VtCooked? then Cooked else WellDone;
            var e := ClearTo(s, env);
            && e.written == []
            && |e.calls| == 1 && e.calls[0].SetAttributes?
            && e.calls[0].termios.input == DocumentedInput(mode)
            && e.calls[0].termios.output == DocumentedOutput(mode)
            && e.calls[0].termios.control == DocumentedControl(mode)
            && e.calls[0].termios.local == DocumentedLocal(mode)
            && e.calls[0].termios.controlChars == t.controlChars
            && (e.result.Pass? <==> env.terminal.commit.Pass?)
            && (e.result.Fail? ==> e.result == Fail(Nix(env.terminal.commit.error)))
  {
  }

  /** Off Unix, or when the terminal cannot be reached or read, the
      terminal-mode strategies never call `tcsetattr`: they succeed doing
      nothing, or return the read error: a nix error from `isatty` or
      `tcgetattr`, an I/O error from opening `/dev/tty`. */
  /** The terminal-mode strategies fail only with the errors the nix calls
      and opening `/dev/tty` produce. */
  lemma TerminalModeErrors(s: ClearScreen, env: Env)
    requires s.VtCooked? || s.VtWellDone?
    ensures var e := ClearTo(s, env);
            && (e.result.Fail? ==> e.result.error.Nix? || e.result.error.Io?)
            && (e.result.Fail? && e.result.error.Io? ==>
                  env.terminal.Tty? && env.terminal.attributes == Err(OpenTty(e.result.error.io)))
  {
  }

  lemma TerminalModeWithoutTerminal(s: ClearScreen, env: Env)
    requires s.VtCooked? || s.VtWellDone?
    requires env.terminal.NoTermios? || env.terminal.attributes.Err?
    ensures var e := ClearTo(s, env);
            && e.written == [] && e.calls == []
            && (env.terminal.NoTermios? ==> e.result == Pass)
            && (env.terminal.Tty? && env.terminal.attributes.error.Errno? ==>
                  e.result == Fail(Nix(env.terminal.attributes.error.errno)))
            && (env.terminal.Tty? && env.terminal.attributes.error.OpenTty? ==>
                  e.result == Fail(Io(env.terminal.attributes.error.io)))
  {
  }
}

=== FILE: screen.dfy ===
/** The strategy dispatcher: the `ClearScreen` enum and `ClearScreen::clear_to`
    (src/lib.rs), run against an abstract environment. */
module Screen {
  import opened Wrappers
  import opened Bytes
  import opened Errors
  import opened Sinks
  import opened Escapes
  import opened Capabilities
  import opened Termios

  /** Ways to clear the screen: one tag per variant of the source's enum. */
  datatype ClearScreen =
    | Terminfo
    | TerminfoScreen
    | TerminfoScrollback
    | TerminfoReset
    | XtermClear
    | XtermReset
    | TputClear
    | TputReset
    | Cls
    | WindowsVt
    | WindowsVtClear
    | WindowsConsoleClear
    | WindowsConsoleBlank
    | WindowsCooked
    | VtRis
    | VtLeaveAlt
    | VtCooked
    | VtWellDone
  {
    /** The strategies that only write literal bytes to the sink. */
    predicate IsFixedSequence() {
      XtermClear? || XtermReset? || VtRis? || VtLeaveAlt?
    }

    /** The strategies that write to the sink at all. */
    predicate WritesToSink() {
      IsFixedSequence() || WindowsVtClear? || Terminfo? || TerminfoScreen?
      || TerminfoScrollback? || TerminfoReset?
    }
  }

  /** A command line handed to the operating system. */
  datatype Invocation = Invocation(program: string, args: seq<string>)

  /** The Windows console operations (`mod win`). */
  datatype ConsoleOp = EnableVt | ConsoleClear | ConsoleBlank | ConsoleCooked

  /** What the Windows console operations return. On targets without a
      Windows console every one of them succeeds. */
  datatype Console = Console(
    vt: Outcome<Error>,
    clear: Outcome<Error>,
    blank: Outcome<Error>,
    cooked: Outcome<Error>)

  const NoConsole: Console := Console(Pass, Pass, Pass, Pass)

  /** Everything a strategy consults besides its own tag:
      - `database`: the outcome of loading the terminfo database from the
        environment (`Database::from_env`);
      - `run`: the outcome of spawning a command and waiting for it;
      - `console`: the outcomes of the Windows console operations;
      - `terminal`: the Unix terminal, if any;
      - `sink`: the writer. */
  datatype Env = Env(
    database: Result<Database, TerminfoError>,
    run: Invocation -> Result<ExitStatus, IoError>,
    console: Console,
    terminal: Terminal,
    sink: Sink)

  /** A side effect on the system outside the sink. */
  datatype Call =
    | Spawn(invocation: Invocation)
    | ConsoleCall(op: ConsoleOp)
    | SetAttributes(termios: Termios)

  /** What one `clear_to` call did: the bytes the sink accepted, the calls it
      made outside the sink, in order, and its result. */
  datatype Effect = Effect(written: Bytes, calls: seq<Call>, result: Outcome<Error>)

  /** An effect that only wrote to the sink. */
  function Writing(w: Written<Error>): Effect {
    Effect(w.out, [], w.result)
  }

  /** A run of plain `w.write_all(..)?` statements; their failures are
      `Error::Io`. */
  function WriteFixed(sink: Sink, chunks: seq<Bytes>): (e: Effect)
    ensures e.calls == []
    ensures e.written <= Concat(chunks)
    ensures e.result.Pass? <==> Accepts(sink, |Concat(chunks)|)
    ensures e.result.Pass? ==> e.written == Concat(chunks)
    ensures e.result.Fail? ==> e.result.error == Io(sink.failure) && |e.written| == sink.capacity
  {
    var v := WriteEach(sink, [], chunks);
    Effect(v.out, [], if v.result.Pass? then Pass else Fail(Io(v.result.error)))
  }

  /** The `Terminfo` arm: `clear` is required, `E3` is written after it when
      present and is no error when absent. */
  function TerminfoClear(env: Env): (e: Effect)
    ensures e.calls == []
    ensures env.database.Err? ==> e == Effect([], [], Fail(Errors.Terminfo(env.database.error)))
    ensures env.database.Ok? ==>
              var db := env.database.value;
              && (Cap.ClearScreen !in db ==> e == Effect([], [], Fail(TerminfoCap("clear"))))
              && (Cap.ClearScreen in db ==>
                    && e.written <= db[Cap.ClearScreen].Output()
                                    + (if User3 in db then db[User3].Output() else [])
                    && (e.result.Pass? <==>
                          && CleanlyExpands(db, Cap.ClearScreen)
                          && (User3 in db ==> CleanlyExpands(db, User3))
                          && Accepts(env.sink, |db[Cap.ClearScreen].bytes|
                                               + (if User3 in db then |db[User3].bytes| else 0)))
                    && (e.result.Fail? ==> e.result.error.Terminfo?)
                    && EndsWriting(env.sink, [],
                                   db[Cap.ClearScreen].Output()
                                   + (if CleanlyExpands(db, Cap.ClearScreen) && User3 in db
                                      then db[User3].Output() else []),
                                   db[Cap.ClearScreen].Faulty? || (User3 in db && db[User3].Faulty?),
                                   Written(e.written, e.result)))
              && (CleanlyExpands(db, Cap.ClearScreen) && User3 !in db && env.sink.Unbounded? ==>
                    e == Effect(db[Cap.ClearScreen].bytes, [], Pass))
              && (CleanlyExpands(db, Cap.ClearScreen) && CleanlyExpands(db, User3) && env.sink.Unbounded? ==>
                    e == Effect(db[Cap.ClearScreen].bytes + db[User3].bytes, [], Pass))
  {
    match env.database
    case Err(cause) => Effect([], [], Fail(Errors.Terminfo(cause)))
    case Ok(db) =>
      if Cap.ClearScreen !in db then
        Effect([], [], Fail(TerminfoCap("clear")))
      else
        var x := db[Cap.ClearScreen];
        var screen := Emit(env.sink, [], x);
        if x.Faulty? || User3 !in db then
          assert x.Output() + [] == x.Output();
          Writing(screen)
        else if screen.result.Fail? then
          EndsWritingCut(env.sink, [], x.bytes, db[User3].Output(), db[User3].Faulty?, screen);
          Writing(screen)
        else
          var scrollback := Emit(env.sink, screen.out, db[User3]);
          EndsWritingThen(env.sink, [], x.bytes, db[User3].Output(), db[User3].Faulty?, scrollback);
          Writing(scrollback)
  }

  /** The `TerminfoScreen` and `TerminfoScrollback` arms: one required
      capability, reported under `name` when missing. */
  function TerminfoOne(env: Env, cap: Cap, name: string): (e: Effect)
    ensures e.calls == []
    ensures env.database.Err? ==> e == Effect([], [], Fail(Errors.Terminfo(env.database.error)))
    ensures env.database.Ok? ==>
              var db := env.database.value;
              && (cap !in db ==> e == Effect([], [], Fail(TerminfoCap(name))))
              && (cap in db ==>
                    && e.written <= db[cap].Output()
                    && (e.result.Pass? <==> CleanlyExpands(db, cap) && Accepts(env.sink, |db[cap].bytes|))
                    && (e.result.Fail? ==> e.result.error.Terminfo?)
                    && EndsWriting(env.sink, [], db[cap].Output(), db[cap].Faulty?, Written(e.written, e.result)))
              && (CleanlyExpands(db, cap) && env.sink.Unbounded? ==> e == Effect(db[cap].bytes, [], Pass))
  {
    match env.database
    case Err(cause) => Effect([], [], Fail(Errors.Terminfo(cause)))
    case Ok(db) =>
      if cap !in db then Effect([], [], Fail(TerminfoCap(name)))
      else Writing(Emit(env.sink, [], db[cap]))
  }

  /** The `TerminfoReset` arm: the reset strings if the database has any of
      them, else the init strings, else a missing-capability error. */
  function TerminfoResetting(env: Env): (e: Effect)
    ensures e.calls == []
    ensures env.database.Err? ==> e == Effect([], [], Fail(Errors.Terminfo(env.database.error)))
    ensures env.database.Ok? ==>
              var db := env.database.value;
              && (AnyPresent(db, ResetCaps) ==>
                    && e.written <= Concat(Outputs(db, ResetCaps))
                    && (e.result.Pass? <==>
                          AllExpand(db, ResetCaps) && Accepts(env.sink, |Concat(Outputs(db, ResetCaps))|))
                    && (e.result.Fail? ==> e.result.error.Terminfo?)
                    && EndsWriting(env.sink, [], UpToFault(db, ResetCaps), !AllExpand(db, ResetCaps),
                                   Written(e.written, e.result))
                    && (AllExpand(db, ResetCaps) && env.sink.Unbounded? ==>
                          e == Effect(Concat(Outputs(db, ResetCaps)), [], Pass)))
              && (!AnyPresent(db, ResetCaps) && AnyPresent(db, InitCaps) ==>
                    && e.written <= Concat(Outputs(db, InitCaps))
                    && (e.result.Pass? <==>
                          AllExpand(db, InitCaps) && Accepts(env.sink, |Concat(Outputs(db, InitCaps))|))
                    && (e.result.Fail? ==> e.result.error.Terminfo?)
                    && EndsWriting(env.sink, [], UpToFault(db, InitCaps), !AllExpand(db, InitCaps),
                                   Written(e.written, e.result))
                    && (AllExpand(db, InitCaps) && env.sink.Unbounded? ==>
                          e == Effect(Concat(Outputs(db, InitCaps)), [], Pass)))
              && (!AnyPresent(db, ResetCaps) && !AnyPresent(db, InitCaps) ==>
                    e == Effect([], [], Fail(TerminfoCap("reset"))))
  {
    match env.database
    case Err(cause) => Effect([], [], Fail(Errors.Terminfo(cause)))
    case Ok(db) =>
      var reset := EmitPresent(db, env.sink, [], ResetCaps);
      if reset.result.Fail? || AnyPresent(db, ResetCaps) then
        Writing(reset)
      else
        var init := EmitPresent(db, env.sink, reset.out, InitCaps);
        if init.result.Fail? || AnyPresent(db, InitCaps) then Writing(init)
        else Effect(init.out, [], Fail(TerminfoCap("reset")))
  }

  /** The command-running arms: spawn failures propagate as I/O errors, a
      non-success exit status is reported under `name`. */
  function RunCommand(env: Env, invocation: Invocation, name: string): (e: Effect)
    ensures e.written == [] && e.calls == [Spawn(invocation)]
    ensures e.result.Pass? <==> env.run(invocation).Ok? && env.run(invocation).value.Success()
    ensures env.run(invocation).Err? ==> e.result == Fail(Io(env.run(invocation).error))
    ensures env.run(invocation).Ok? && !env.run(invocation).value.Success() ==>
              e.result == Fail(Command(name, env.run(invocation).value))
  {
    match env.run(invocation)
    case Err(io) => Effect([], [Spawn(invocation)], Fail(Io(io)))
    case Ok(status) =>
      if status.Success() then Effect([], [Spawn(invocation)], Pass)
      else Effect([], [Spawn(invocation)], Fail(Command(name, status)))
  }

  /** A Windows console arm: the operation's outcome, nothing written. */
  function ConsoleArm(op: ConsoleOp, outcome: Outcome<Error>): Effect {
    Effect([], [ConsoleCall(op)], outcome)
  }

  /** A Unix terminal-mode arm. */
  function TermiosArm(terminal: Terminal, mode: Mode): (e: Effect)
    ensures e.written == []
    ensures e.result == WriteTermios(terminal, mode).result
    ensures terminal.NoTermios? ==> e == Effect([], [], Pass)
    ensures terminal.Tty? && terminal.attributes.Err? ==>
              e == Effect([], [], Fail(terminal.attributes.error.AsError()))
    ensures e.result.Fail? ==> e.result.error.Nix? || e.result.error.Io?
    ensures terminal.Tty? && terminal.attributes.Ok? ==>
              && |e.calls| == 1 && e.calls[0].SetAttributes?
              && e.calls[0].termios.input == DocumentedInput(mode)
              && e.calls[0].termios.output == DocumentedOutput(mode)
              && e.calls[0].termios.control == DocumentedControl(mode)
              && e.calls[0].termios.local == DocumentedLocal(mode)
              && e.calls[0].termios.controlChars == terminal.attributes.value.controlChars
              && (e.result.Pass? <==> terminal.commit.Pass?)
              && (terminal.commit.Fail? ==> e.result == Fail(Nix(terminal.commit.error)))
  {
    var a := WriteTermios(terminal, mode);
    Effect([], if a.requested.Some? then [SetAttributes(a.requested.value)] else [], a.result)
  }

  /** `ClearScreen::clear_to`. */
  function ClearTo(strategy: ClearScreen, env: Env): (e: Effect)
    ensures Accepts(env.sink, |e.written|)
    ensures !strategy.WritesToSink() ==> e.written == []
    ensures strategy.WritesToSink() && !strategy.WindowsVtClear? ==> e.calls == []
  {
    match strategy
    case Terminfo => TerminfoClear(env)
    case TerminfoScreen => TerminfoOne(env, Cap.ClearScreen, "clear")
    case TerminfoScrollback => TerminfoOne(env, User3, "E3")
    case TerminfoReset => TerminfoResetting(env)
    case XtermClear => WriteFixed(env.sink, XtermClearWrites)
    case XtermReset => WriteFixed(env.sink, XtermResetWrites)
    case TputClear => RunCommand(env, Invocation("tput", ["clear"]), "tput clear")
    case TputReset => RunCommand(env, Invocation("tput", ["reset"]), "tput reset")
    case Cls => RunCommand(env, Invocation("cls", []), "cls")
    case WindowsVt => ConsoleArm(EnableVt, env.console.vt)
    case WindowsVtClear =>
      var clear := WriteFixed(env.sink, XtermClearWrites);
      Effect(clear.written, [ConsoleCall(EnableVt)],
             if clear.result.Fail? then clear.result else env.console.vt)
    case WindowsConsoleClear => ConsoleArm(ConsoleClear, env.console.clear)
    case WindowsConsoleBlank => ConsoleArm(ConsoleBlank, env.console.blank)
    case WindowsCooked => ConsoleArm(ConsoleCooked, env.console.cooked)
    case VtRis => WriteFixed(env.sink, VtRisWrites)
    case VtLeaveAlt => WriteFixed(env.sink, VtLeaveAltWrites)
    case VtCooked => TermiosArm(env.terminal, Cooked)
    case VtWellDone => TermiosArm(env.terminal, WellDone)
  }
}

=== FILE: sinks.dfy ===
/** The output sink a clearing strategy writes to, and Rust's `write_all`. */
module Sinks {
  import opened Wrappers
  import opened Bytes
  import opened Errors

  /** Either a sink that accepts everything, or one that accepts `capacity`
      bytes in total and then rejects every further byte with `failure`. */
  datatype Sink = Unbounded | Bounded(capacity: nat, failure: IoError)

  /** True when a sink can hold `n` bytes in total. */
  predicate Accepts(sink: Sink, n: int) {
    sink.Unbounded? || n <= sink.capacity
  }

  /** Everything written so far, and how the last write ended. */
  datatype Written<+E> = Written(out: Bytes, result: Outcome<E>)

  /** `write_all(chunk)` on a sink that already holds `out`: the bytes that fit
      are kept even when the write as a whole fails. */
  function WriteAll(sink: Sink, out: Bytes, chunk: Bytes): (w: Written<IoError>)
    requires Accepts(sink, |out|)
    ensures Accepts(sink, |w.out|)
    ensures out <= w.out <= out + chunk
    ensures w.result.Pass? <==> Accepts(sink, |out| + |chunk|)
    ensures w.result.Pass? ==> w.out == out + chunk
    ensures w.result.Fail? ==> |w.out| == sink.capacity && w.result.error == sink.failure
    ensures w.result.Fail? ==> w.out == (out + chunk)[..sink.capacity]
  {
    if Accepts(sink, |out| + |chunk|) then
      Written(out + chunk, Pass)
    else
      assert out + chunk[..sink.capacity - |out|] == (out + chunk)[..sink.capacity];
      Written(out + chunk[..sink.capacity - |out|], Fail(sink.failure))
  }

  /** A run of `w.write_all(c)?` statements, one per chunk: the first failing
      write ends the run, and what it and earlier writes wrote stays written. */
  function WriteEach(sink: Sink, out: Bytes, chunks: seq<Bytes>): (w: Written<IoError>)
    requires Accepts(sink, |out|)
    ensures Accepts(sink, |w.out|)
    ensures out <= w.out <= out + Concat(chunks)
    ensures w.result.Pass? <==> Accepts(sink, |out| + |Concat(chunks)|)
    ensures w.result.Pass? ==> w.out == out + Concat(chunks)
    ensures w.result.Fail? ==> |w.out| == sink.capacity && w.result.error == sink.failure
    decreases |chunks|
  {
    if chunks == [] then
      Written(out, Pass)
    else
      var first := WriteAll(sink, out, chunks[0]);
      if first.result.Fail? then first
      else WriteEach(sink, first.out, chunks[1..])
  }
}

=== FILE: termios.dfy ===
/** The Unix terminal-mode part of the library (src/lib.rs, `mod unix`): the
    four termios flag groups as sets of flag tags, the full reset, the two
    mode mutators, and `write_termios` over an abstract terminal. */
module Termios {
  import opened Wrappers
  import opened Bytes
  import opened Errors

  /** Input-mode flags (`c_iflag`). */
  datatype InputFlag =
    | IGNBRK | BRKINT | IGNPAR | PARMRK | INPCK | ISTRIP | INLCR | IGNCR
    | ICRNL | IUCLC | IXON | IXANY | IXOFF | IMAXBEL | IUTF8

  /** Output-mode flags (`c_oflag`); the delay fields are single tags. */
  datatype OutputFlag =
    | OPOST | OLCUC | ONLCR | OCRNL | ONOCR | ONLRET | OFILL | OFDEL
    | NLDLY | CRDLY | TABDLY | BSDLY | VTDLY | FFDLY

  /** Control-mode flags (`c_cflag`); the character size is a single tag. */
  datatype ControlFlag =
    | CSIZE | CSTOPB | CREAD | PARENB | PARODD | HUPCL | CLOCAL | CRTSCTS

  /** Local-mode flags (`c_lflag`). */
  datatype LocalFlag =
    | ISIG | ICANON | ECHO | ECHOE | ECHOK | ECHONL | NOFLSH | TOSTOP
    | ECHOCTL | ECHOPRT | ECHOKE | FLUSHO | PENDIN | IEXTEN | EXTPROC

  /** A terminal configuration: the four flag groups plus the control
      characters, which the library never touches. */
  datatype Termios = Termios(
    input: set<InputFlag>,
    output: set<OutputFlag>,
    control: set<ControlFlag>,
    local: set<LocalFlag>,
    controlChars: Bytes)

  /** Every flag of each group: the bitflags `all()` of the source. */
  const AllInput: set<InputFlag> :=
    {IGNBRK, BRKINT, IGNPAR, PARMRK, INPCK, ISTRIP, INLCR, IGNCR,
     ICRNL, IUCLC, IXON, IXANY, IXOFF, IMAXBEL, IUTF8}
  const AllOutput: set<OutputFlag> :=
    {OPOST, OLCUC, ONLCR, OCRNL, ONOCR, ONLRET, OFILL, OFDEL,
     NLDLY, CRDLY, TABDLY, BSDLY, VTDLY, FFDLY}
  const AllControl: set<ControlFlag> :=
    {CSIZE, CSTOPB, CREAD, PARENB, PARODD, HUPCL, CLOCAL, CRTSCTS}
  const AllLocal: set<LocalFlag> :=
    {ISIG, ICANON, ECHO, ECHOE, ECHOK, ECHONL, NOFLSH, TOSTOP,
     ECHOCTL, ECHOPRT, ECHOKE, FLUSHO, PENDIN, IEXTEN, EXTPROC}

  /** The `all()` sets really hold every flag of their group. */
  lemma AllFlagsListed()
    ensures forall f: InputFlag :: f in AllInput
    ensures forall f: OutputFlag :: f in AllOutput
    ensures forall f: ControlFlag :: f in AllControl
    ensures forall f: LocalFlag :: f in AllLocal
  {
    forall f: InputFlag ensures f in AllInput {
      match f
        case IGNBRK => case BRKINT => case IGNPAR => case PARMRK => case INPCK =>
        case ISTRIP => case INLCR => case IGNCR => case ICRNL => case IUCLC =>
        case IXON => case IXANY => case IXOFF => case IMAXBEL => case IUTF8 =>
    }
    forall f: OutputFlag ensures f in AllOutput {
      match f
        case OPOST => case OLCUC => case ONLCR => case OCRNL => case ONOCR =>
        case ONLRET => case OFILL => case OFDEL => case NLDLY => case CRDLY =>
        case TABDLY => case BSDLY => case VTDLY => case FFDLY =>
    }
    forall f: ControlFlag ensures f in AllControl {
      match f
        case CSIZE => case CSTOPB => case CREAD => case PARENB => case PARODD =>
        case HUPCL => case CLOCAL => case CRTSCTS =>
    }
    forall f: LocalFlag ensures f in AllLocal {
      match f
        case ISIG => case ICANON => case ECHO => case ECHOE => case ECHOK =>
        case ECHONL => case NOFLSH => case TOSTOP => case ECHOCTL => case ECHOPRT =>
        case ECHOKE => case FLUSHO => case PENDIN => case IEXTEN => case EXTPROC =>
    }
  }

  /** The two configurations the library can write. */
  datatype Mode = Cooked | WellDone

  /** `reset_termios`: every bit of every flag group off. */
  function ResetTermios(t: Termios): (r: Termios)
    ensures forall f: InputFlag :: f !in r.input
    ensures forall f: OutputFlag :: f !in r.output
    ensures forall f: ControlFlag :: f !in r.control
    ensures forall f: LocalFlag :: f !in r.local
    ensures r.controlChars == t.controlChars
  {
    AllFlagsListed();
    t.(input := t.input - AllInput, output := t.output - AllOutput,
       control := t.control - AllControl, local := t.local - AllLocal)
  }

  /** The closures `vt_cooked` and `vt_well_done` hand to `write_termios`:
      each inserts a fixed set of flags into the groups it names. */
  function Insert(mode: Mode, t: Termios): Termios {
    match mode
    case Cooked =>
      t.(input := t.input + {BRKINT, ICRNL, IGNPAR, ISTRIP, IXON},
         output := t.output + {OPOST},
         local := t.local + {ICANON, ISIG})
    case WellDone =>
      t.(input := t.input + {BRKINT, ICRNL, IUTF8, IGNPAR, IMAXBEL, ISTRIP, IXON},
         output := t.output + {ONLCR, OPOST},
         control := t.control + {CREAD},
         local := t.local + {ICANON, ISIG})
  }

  /** The flags each mode is documented to set, per group; every other flag is
      documented to be cleared. */
  function DocumentedInput(mode: Mode): set<InputFlag> {
    match mode
    case Cooked => {BRKINT, ICRNL, IGNPAR, ISTRIP, IXON}
    case WellDone => {BRKINT, ICRNL, IUTF8, IGNPAR, IMAXBEL, ISTRIP, IXON}
  }

  function DocumentedOutput(mode: Mode): set<OutputFlag> {
    match mode
    case Cooked => {OPOST}
    case WellDone => {ONLCR, OPOST}
  }

  function DocumentedControl(mode: Mode): set<ControlFlag> {
    match mode
    case Cooked => {}
    case WellDone => {CREAD}
  }

  function DocumentedLocal(mode: Mode): set<LocalFlag> {
    match mode
    case Cooked => {ICANON, ISIG}
    case WellDone => {ICANON, ISIG}
  }

  /** The in-memory transform of `write_termios`: reset, then the mode's
      closure. The result holds exactly the documented flags, whatever flags
      the terminal had, and keeps everything outside the four groups. */
  function Configure(mode: Mode, t: Termios): (r: Termios)
    ensures r.input == DocumentedInput(mode)
    ensures r.output == DocumentedOutput(mode)
    ensures r.control == DocumentedControl(mode)
    ensures r.local == DocumentedLocal(mode)
    ensures r.controlChars == t.controlChars
  {
    Insert(mode, ResetTermios(t))
  }

  /** Why the terminal could not be found or read: `isatty` or `tcgetattr`
      failed with an errno, or opening `/dev/tty` failed. */
  datatype TermiosFailure = Errno(errno: nat) | OpenTty(io: IoError) {

    /** The library error `?` turns it into: nix errors become `Nix`, I/O
        errors become `Io`. */
    function AsError(): Error {
      match this
      case Errno(n) => Nix(n)
      case OpenTty(io) => Io(io)
    }
  }

  /** The terminal the library talks to on Unix, or none on other targets.
      `attributes` is the outcome of finding the terminal (standard input when
      it is a terminal, else `/dev/tty`) and reading its attributes; `commit`
      is the outcome of writing them back with `tcsetattr`, whose only
      failure is an errno. */
  datatype Terminal = NoTermios | Tty(attributes: Result<Termios, TermiosFailure>, commit: Outcome<nat>)

  /** What `write_termios` did: the attributes it handed to `tcsetattr`, if it
      got that far, and its result. */
  datatype Applied = Applied(requested: Option<Termios>, result: Outcome<Error>)

  /** `vt_cooked` / `vt_well_done`: on Unix, read, reset, mutate, write back;
      elsewhere, succeed without doing anything. */
  function WriteTermios(terminal: Terminal, mode: Mode): (a: Applied)
    ensures terminal.NoTermios? ==> a == Applied(None, Pass)
    ensures terminal.Tty? && terminal.attributes.Err? ==>
              && a.requested.None?
              && (terminal.attributes.error.Errno? ==>
                    a.result == Fail(Nix(terminal.attributes.error.errno)))
              && (terminal.attributes.error.OpenTty? ==>
                    a.result == Fail(Io(terminal.attributes.error.io)))
    ensures a.result.Fail? ==> a.result.error.Nix? || a.result.error.Io?
    ensures terminal.Tty? && terminal.attributes.Ok? ==>
              && a.requested.Some?
              && a.requested.value.input == DocumentedInput(mode)
              && a.requested.value.output == DocumentedOutput(mode)
              && a.requested.value.control == DocumentedControl(mode)
              && a.requested.value.local == DocumentedLocal(mode)
              && a.requested.value.controlChars == terminal.attributes.value.controlChars
              && (a.result.Pass? <==> terminal.commit.Pass?)
              && (terminal.commit.Fail? ==> a.result == Fail(Nix(terminal.commit.error)))
  {
    match terminal
    case NoTermios => Applied(None, Pass)
    case Tty(attributes, commit) =>
      match attributes
      case Err(failure) => Applied(None, Fail(failure.AsError()))
      case Ok(t) =>
        Applied(Some(Configure(mode, t)), if commit.Pass? then Pass else Fail(Nix(commit.error)))
  }
}

=== FILE: wrappers.dfy ===
/** Small failure-carrying datatypes shared by the rest of the model. */
module Wrappers {

  /** An optional value. */
  datatype Option<+T> = None | Some(value: T)

  /** A value or an error, like Rust's `Result<T, E>`. */
  datatype Result<+T, +E> = Ok(value: T) | Err(error: E)

  /** A `Result<(), E>`: success carries nothing. */
  datatype Outcome<+E> = Pass | Fail(error: E)
}
